=== FILE: README.md ===
# Undo log and block-index record codecs

This project models two binary codecs that a blockchain node uses for its
persisted records, and proves layout, round-trip and error-path properties
about them.

- **Undo log** (`undo.dfy`, module `Undo`). A `TxUndo` holds the coins that
  one transaction's inputs spent. It is written as a varint count followed
  by each coin. A `BlockUndo` holds one `TxUndo` per transaction of a block.
  Its intended format is a var-len-int count followed by each `TxUndo`. The
  Go serializer as written puts out only the count and the first entry (see
  the first row under Findings). The model has both the serializer as
  written and a corrected one. Reading a `TxUndo` rejects a count above
  `MaxInputPerTx` before it reads any coin. Both readers assign to the
  receiver only after every element has decoded.
- **Block-index record** (`diskblockindex.dfy`, module `DiskBlockIndex`). A
  record is the format tag 160000, then `Height`, `Status`, `TxCount`,
  `File`, `DataPos` and `UndoPos`, each in a fixed-width encoding, then the
  block header. The record is assembled in a buffer and handed to the writer
  in one write. On reading, the tag goes into a local and is never checked.
- **Streams** (`streams.dfy`, module `Streams`). Byte sequences, errors, the
  contracts of the collaborating codecs, and the generic "write each element,
  stop at the first error" and "read n elements" loops with their lemmas.

Streams are byte sequences. A decoder returns the decoded value and the
unread rest of its input. An encoder returns the bytes it writes, or the
error. A write that stops at an error keeps the bytes already written: this
is `Written(out, status)`. An in-place `Unserialize` returns
`Loaded(receiver, outcome)`: the receiver's value after the call, and either
the unread input or the error.

The coin and header formats, the two varint formats and the fixed-width
element formats are not part of this model. They are parameters of type
`Codec<T>`. Each property states the codec law it relies on as a
hypothesis:
- `RoundTrips`: decoding an encoding gives the value back and leaves what
  follows unread.
- `ConsumesPrefix`: decoding only reads a prefix of its input.
- `FixedWidth`: every encoding has the same width.

The bound `MaxInputPerTx` is the field `maxInputPerTx` of `UndoCodecs`.

The panic on a coin count above the bound is modelled as the error
`TooManyInputs(count)`.

Go checks no bound on the `BlockUndo` count. Its `make` at
model/undo/undo.go:112 panics when the count is too large to allocate. That
limit is the parameter `maxSliceLen` of `UndoCodecs`. A larger count is
modelled as the error `LengthOutOfRange(count)`, raised before any entry
is read.

## Model

| member | source | states |
|---|---|---|
| Undo.NewTxUndo | model/undo/undo.go:134-138 | a new TxUndo holds no coins |
| Undo.SetUndoCoins | model/undo/undo.go:31-33 | after SetUndoCoins, GetUndoCoins returns exactly the coins given |
| Undo.SerializeTxUndo | model/undo/undo.go:39-51 | the write succeeds exactly when the count and every coin can be written |
| Undo.SerializeTxUndoLayout | model/undo/undo.go:39-51 | the output is the count followed by each coin in list order; at the first coin that fails, writing stops with that coin's error and keeps the bytes before it; a failed count write outputs nothing |
| Undo.UnserializeTxUndo | model/undo/undo.go:53-74 | on any error the receiver keeps its value; when the count cannot be read, the count decoder's own error is returned; on success the count was read, is within MaxInputPerTx, and equals the number of coins now held |
| Undo.CoinFailureReported | model/undo/undo.go:63-69 | after k successfully written coins out of n announced, bytes that are not a coin make Unserialize return the coin decoder's own error for them, with the receiver unchanged |
| Undo.TxUndoRoundTrip | model/undo/undo.go:39-74 | a successfully written TxUndo within the bound reads back as the same coins in the same order, whatever the receiver held, and the bytes after it are left unread |
| Undo.TooManyInputsBeforeCoins | model/undo/undo.go:55-61 | a count above the bound yields TooManyInputs and leaves the receiver unchanged; the result does not depend on the coin codec, so no coin is read |
| Undo.OversizedTxUndoRejected | model/undo/undo.go:39-61 | Serialize does not check the bound, so a TxUndo with more coins than MaxInputPerTx is written without error but reading it back fails with TooManyInputs |
| Undo.TruncatedTxUndoRejected | model/undo/undo.go:63-69 | input that ends right after a non-zero count fails with the coin decoder's error and leaves the receiver unchanged |
| Undo.UnserializeTxUndoConsumesPrefix | model/undo/undo.go:53-74 | when the count and coin decoders read only a prefix of their input, so does TxUndo.Unserialize |
| Undo.NewBlockUndo | model/undo/undo.go:86-90 | a new BlockUndo holds no entries, whatever the capacity hint |
| Undo.SetTxUndo | model/undo/undo.go:125-127 | after SetTxUndo, GetTxundo returns exactly the list given |
| Undo.AddTxUndo | model/undo/undo.go:128-130 | AddTxUndo adds one entry, the given one, at the end and leaves the earlier entries unchanged |
| Undo.SerializeBlockUndoAsWritten | model/undo/undo.go:92-101 | BlockUndo.Serialize as written fails only with the error of the first entry's write |
| Undo.AsWrittenEmpty | model/undo/undo.go:92-99 | with no entries, the serializer as written puts out exactly the encoding of the count 0 |
| Undo.AsWrittenStopsAfterFirst | model/undo/undo.go:92-99 | with one or more entries, the serializer as written puts out the count and then only the first entry; its output does not depend on the later entries |
| Undo.AsWrittenRoundTripUpToOne | model/undo/undo.go:92-123 | with zero or one entry, the serializer as written agrees with the corrected one, and the pair as written round-trips |
| Undo.AsWrittenLosesLaterEntries | model/undo/undo.go:92-123 | with two or more entries, reading back the output of the serializer as written runs out of input at the second entry, with the deserializer as written and with the corrected one |
| Undo.AsWrittenHidesCountWriteFailure | model/undo/undo.go:93-94 | when the count write fails and there are no entries, the serializer as written reports success with no bytes written, while the corrected one returns the error |
| Undo.AsWrittenDropsCount | model/undo/undo.go:93-97 | when the count write fails and the first entry's write succeeds, the serializer as written reports success having written only that entry, while the corrected one returns the count error |
| Undo.SerializeBlockUndo | model/undo/undo.go:92-101 | the corrected BlockUndo.Serialize succeeds exactly when the count and every TxUndo can be written |
| Undo.BlockUndoRoundTrip | model/undo/undo.go:92-123 | a successfully written BlockUndo whose entries are within the coin bound, and whose length can be allocated, reads back entry for entry, in order, with any number of entries, and the bytes after it are left unread |
| Undo.TwoEntryScenario | model/undo/undo.go:92-123 | two entries, one with a single coin and one with no coins, are written as count 2, count 1, the coin, count 0, and read back unchanged |
| Undo.SerializeSizeOfBuffer | model/undo/undo.go:103-108 | measuring into a fresh buffer never fails, whatever the destination: the size is the length of the var-len-int count plus, when there is one, the first TxUndo, and for no entry it is the length of the encoded count 0 |
| Undo.MeasuredTxUndo | model/undo/undo.go:40-49 | a TxUndo that a destination writer accepts goes into the measuring buffer as the same bytes |
| Undo.SerializeSizeMeasuresDestination | model/undo/undo.go:103-108 | when the destination accepts the count and the first entry, the measured size is the length of what the serializer as written hands to it |
| Undo.SerializeSizeExactUpToOne | model/undo/undo.go:103-108 | with zero or one entry, SerializeSize equals the length of the full serialization to a destination that accepts it |
| Undo.SerializeSizeUndercounts | model/undo/undo.go:103-108 | with two or more entries, SerializeSize is smaller than the length of the full serialization to a destination that accepts it |
| Streams.WriteEachAgrees | model/undo/undo.go:44-49 | two writers that agree on every element write the same bytes and report the same status for the whole sequence |
| Undo.UnserializeBlockUndoAsWritten | model/undo/undo.go:110-123 | BlockUndo.Unserialize as written keeps the receiver on any error it returns; on success the receiver holds as many entries as the decoded count, or none when the count could not be read |
| Undo.AsWrittenHidesCountReadFailure | model/undo/undo.go:110-113 | when the count cannot be read, the deserializer as written reports success with an empty BlockUndo, while the corrected one returns the error and keeps the receiver |
| Undo.UnserializeBlockUndo | model/undo/undo.go:110-123 | the corrected BlockUndo.Unserialize keeps the receiver on any error; on success the count was read, could be allocated, and the receiver holds exactly that many entries |
| Undo.EntryFailureReported | model/undo/undo.go:113-118 | after k successfully written entries out of n announced, bytes that are not a TxUndo make both deserializers return the TxUndo reader's own error for them, with the receiver unchanged |
| Undo.UnallocatableCountRejected | model/undo/undo.go:111-112 | a count too large to allocate yields LengthOutOfRange from both deserializers before any entry is read, independent of the coin codec, with the receiver unchanged |
| Undo.LoadedBlockUndoBounded | model/undo/undo.go:110-123 | every entry of a successfully read BlockUndo holds at most MaxInputPerTx coins |
| Undo.ReadTxUndosBounded | model/undo/undo.go:113-120 | every TxUndo the BlockUndo reading loop produces respects the coin bound |
| Undo.UnserializeBlockUndoConsumesPrefix | model/undo/undo.go:110-123 | when the count and coin decoders read only a prefix of their input, so does BlockUndo.Unserialize |
| Streams.WriteEachLayout | model/undo/undo.go:44-49 | a write loop that returns on the first error outputs every element before the failing one plus whatever the failing write output, and returns that error |
| Streams.ReadEachInvertsWriteEach | model/undo/undo.go:62-72 | reading back as many elements as were written restores them in order and leaves the following bytes unread |
| Streams.ReadEachStopsAtFailure | model/undo/undo.go:63-69 | when more elements are read than were written before bytes that do not decode, the read fails with the decoder's error for those bytes |
| DiskBlockIndex.GetSerializeList | model/blockindex/diskblockindex.go:14-17 | the field names are those of the written elements after the format tag, in write order, then "Header" |
| DiskBlockIndex.Serialize | model/blockindex/diskblockindex.go:19-35 | the record is produced, and handed over in one write, exactly when every element and the header encode; otherwise nothing is written |
| DiskBlockIndex.SerializeLayout | model/blockindex/diskblockindex.go:19-29 | the record is the encodings of 160000, Height, Status, TxCount, File, DataPos and UndoPos, in that order, followed by the header's encoding |
| DiskBlockIndex.TagLeadsRecord | model/blockindex/diskblockindex.go:21-22 | a written record starts with the 4-byte encoding of the format tag |
| DiskBlockIndex.Unserialize | model/blockindex/diskblockindex.go:37-50 | on success every element was read, and the header was decoded from the bytes that follow the elements; the record holds the element values read, without the tag, and that header; the unread rest is what the header decoder left; when the elements are read but the header is not, the header decoder's own error is returned |
| DiskBlockIndex.RoundTrip | model/blockindex/diskblockindex.go:19-50 | reading a written record restores Height, Status, TxCount, File, DataPos, UndoPos and Header, and leaves the bytes after it unread |
| DiskBlockIndex.VersionNotChecked | model/blockindex/diskblockindex.go:42-44 | whatever 4 bytes stand in the tag position, Unserialize gives the same result |
| DiskBlockIndex.AnyVersionTagAccepted | model/blockindex/diskblockindex.go:42-44 | a written record whose tag is replaced by any 4 bytes still reads back as the record that was written |
| DiskBlockIndex.ElementFailureSkipsHeader | model/blockindex/diskblockindex.go:44-47 | when the elements cannot be read, Unserialize returns that error, and the result does not depend on the header codec |
| DiskBlockIndex.ReadElementsFixedWidth | model/blockindex/diskblockindex.go:44 | with fixed-width element codecs, reading the elements takes exactly their total width and fails on shorter input |
| DiskBlockIndex.FixedSizeRecord | model/blockindex/diskblockindex.go:19-29 | with fixed-width codecs, every written record has the same length, the sum of the widths |
| DiskBlockIndex.TruncatedRecordRejected | model/blockindex/diskblockindex.go:37-50 | with fixed-width codecs, input shorter than a whole record fails to read |
| DiskBlockIndex.UnserializeConsumesPrefix | model/blockindex/diskblockindex.go:37-50 | when the element and header decoders read only a prefix of their input, so does Unserialize |

## Left out

- DisconnectResult (model/undo/undo.go:13-22): constants with no behaviour in these files.
- The io.Writer and io.Reader plumbing and bytes.Buffer: streams are byte sequences, and a failed primitive write is a failed encoder that writes nothing. The fresh bytes.Buffer of SerializeSize is a separate set of codecs that accepts every write (`AcceptsEveryWrite`), and puts out the destination's bytes wherever the destination accepts the write (`MeasuringBuffer`).
- The error of the final `w.Write` in BlockIndex.Serialize: it belongs to the destination writer. `Ok(buf)` is the argument of that one write.
- The byte formats of utxo.Coin and the block header, the two varint formats, and the width and byte order of each element: their code is not part of this model. They are `Codec` parameters with stated laws, and element widths are parameters of the fixed-width lemmas.
- The value of tx.MaxTxInPerMessage: it is not part of this model, so MaxInputPerTx is the parameter `maxInputPerTx`.
- Shared and nil elements in the slices `[]*utxo.Coin` and `[]*TxUndo`: the model holds slices as sequences of values.
- The capacity argument of NewBlockUndo only pre-sizes the slice. Its type is `nat`, because a negative capacity makes Go's `make` panic.
- The process abort of the panic at model/undo/undo.go:60: it is the error `TooManyInputs(count)`.
- The process abort of the `make` panic at model/undo/undo.go:112: it is the error `LengthOutOfRange(count)`. The runtime's exact limit depends on the platform, so it is the parameter `maxSliceLen`. Running out of memory for a count below that limit is not modelled.
- The `make` at model/undo/undo.go:62: its length is at most MaxInputPerTx, which is taken to be allocatable.
- The stream position after a failed ReadVarLenInt at model/undo/undo.go:111: the deserializer as written is taken to receive a zero count together with the error, and its result is computed from the unread input.
- Undo.SerializeSize: carries no contract of its own. It is the length of what the serializer as written puts into a buffer whose writes never fail. SerializeSizeOfBuffer states what that length is made of, and SerializeSizeExactUpToOne and SerializeSizeUndercounts compare it with the full serialization to a destination that accepts every write. Where the destination rejects a write, no lemma relates the two.
- DiskBlockIndex.Unserialize: returns a new record rather than updating the receiver. The receiver's fields after a failed read are not modelled: Go's ReadElements may have overwritten some of them.
- DiskBlockIndex.Serialize: does not describe the buffer contents on failure, because nothing reaches the writer then.

## Findings

| source | as written | input that shows it | evidently intended | confidence | as-written member | corrected member |
|---|---|---|---|---|---|---|
| model/undo/undo.go:95-98 | the loop returns after serializing the first TxUndo, whether or not that write failed | a BlockUndo with two entries: only the count and the first entry are written, so reading back runs out of input at the second entry; SerializeSize is then too small | return only on error, and write every entry | high, not executed | Undo.AsWrittenLosesLaterEntries | Undo.BlockUndoRoundTrip |
| model/undo/undo.go:94 | the error of WriteVarLenInt is discarded | a BlockUndo with no entries and a writer that rejects the count: Serialize returns nil with nothing written; with entries, nil with only the first entry written | return the error of the count write | medium, not executed | Undo.AsWrittenHidesCountWriteFailure | Undo.SerializeBlockUndo |
| model/undo/undo.go:111-115 | the error of ReadVarLenInt is overwritten without being checked | an empty stream: Unserialize returns nil and sets an empty entry list | return the error of the count read | medium, not executed | Undo.AsWrittenHidesCountReadFailure | Undo.UnserializeBlockUndo |

=== FILE: diskblockindex.dfy ===
/** The persisted block-index record: a block's chain position, validation
    status, transaction count, the file and offsets of its data and undo
    data, and its header. Models model/blockindex/diskblockindex.go. */
module DiskBlockIndex {
  import opened Streams

  /** The block header; its byte format belongs to the header type. */
  type Header(!new)

  datatype BlockIndex = BlockIndex(
    height: int,
    status: int,
    txCount: int,
    file: int,
    dataPos: int,
    undoPos: int,
    header: Header)

  /** The format tag written ahead of every record, as an int32. */
  const ClientVersion: int := 160000

  /** The fixed-width values written ahead of the header. */
  datatype Element = Version | Height | Status | TxCount | File | DataPos | UndoPos

  /** The order in which the elements are written and read. */
  const Elements: seq<Element> := [Version, Height, Status, TxCount, File, DataPos, UndoPos]

  /** The fixed-width codec of each element (util.WriteElements and
      util.ReadElements pick it from the field's Go type) and the header codec. */
  datatype IndexCodecs = IndexCodecs(element: Element -> Codec<int>, header: Codec<Header>)

  function ElementValue(b: BlockIndex, e: Element): int {
    match e
    case Version => ClientVersion
    case Height => b.height
    case Status => b.status
    case TxCount => b.txCount
    case File => b.file
    case DataPos => b.dataPos
    case UndoPos => b.undoPos
  }

  function ElementName(e: Element): string {
    match e
    case Version => "ClientVersion"
    case Height => "Height"
    case Status => "Status"
    case TxCount => "TxCount"
    case File => "File"
    case DataPos => "DataPos"
    case UndoPos => "UndoPos"
  }

  /** The names of the persisted fields, in the order Serialize writes them:
      every element after the format tag, then the header. */
  function GetSerializeList(): (names: seq<string>)
    ensures |names| == |Elements|
    ensures forall i :: 1 <= i < |Elements| ==> names[i - 1] == ElementName(Elements[i])
    ensures names[|Elements| - 1] == "Header"
  {
    ["Height", "Status", "TxCount", "File", "DataPos", "UndoPos", "Header"]
  }

  function ElementWriter(b: BlockIndex, c: IndexCodecs): Element -> Written {
    e => Emit(c.element(e).encode(ElementValue(b, e)))
  }

  /** An element's write succeeds exactly when its codec encodes the value. */
  lemma ElementWriterPass(b: BlockIndex, c: IndexCodecs)
    ensures forall e :: ElementWriter(b, c)(e).status.Pass? <==> c.element(e).encode(ElementValue(b, e)).Ok?
  {
  }

  lemma ElementsCoverEveryElement()
    ensures forall e: Element :: e in Elements
  {
    forall e: Element ensures e in Elements {
      match e
      case Version => assert Elements[0] == e;
      case Height => assert Elements[1] == e;
      case Status => assert Elements[2] == e;
      case TxCount => assert Elements[3] == e;
      case File => assert Elements[4] == e;
      case DataPos => assert Elements[5] == e;
      case UndoPos => assert Elements[6] == e;
    }
  }

  /** Assembles the record in a buffer; Ok(buf) is the one Write handed to
      the destination, Err means the destination received nothing. */
  function Serialize(b: BlockIndex, c: IndexCodecs): (r: Result<Bytes>)
    ensures r.Ok? <==>
      && (forall e :: c.element(e).encode(ElementValue(b, e)).Ok?)
      && c.header.encode(b.header).Ok?
  {
    ElementsCoverEveryElement();
    WriteEachPass(Elements, ElementWriter(b, c));
    ElementWriterPass(b, c);
    var buf := Then(WriteEach(Elements, ElementWriter(b, c)), Emit(c.header.encode(b.header)));
    if buf.status.Pass? then Ok(buf.out) else Err(buf.status.error)
  }

  /** Reads one value per element, in order, stopping at the first error.
      This is Streams.ReadEach with a decoder chosen per position rather than
      one decoder for every value: each element has its own width and byte
      order. */
  function ReadElements(es: seq<Element>, s: Bytes, element: Element -> Codec<int>): (r: Result<Decoded<seq<int>>>)
    ensures r.Ok? ==> |r.value.value| == |es|
  {
    if es == [] then Ok(Decoded([], s))
    else
      match element(es[0]).decode(s)
      case Err(e) => Err(e)
      case Ok(first) =>
        match ReadElements(es[1..], first.rest, element)
        case Err(e) => Err(e)
        case Ok(others) => Ok(Decoded([first.value] + others.value, others.rest))
  }

  /** The record from the values read for Elements; the format tag is dropped. */
  function FromElements(vs: seq<int>, h: Header): BlockIndex
    requires |vs| == |Elements|
  {
    BlockIndex(vs[1], vs[2], vs[3], vs[4], vs[5], vs[6], h)
  }

  /** Reads the elements, then the header. The format tag is read into a
      local and never compared with anything. */
  function Unserialize(s: Bytes, c: IndexCodecs): (r: Result<Decoded<BlockIndex>>)
    ensures r.Ok? ==> ReadElements(Elements, s, c.element).Ok?
    ensures ReadElements(Elements, s, c.element).Ok? ==>
      var h := c.header.decode(ReadElements(Elements, s, c.element).value.rest);
      h.Err? ==> r == Err(h.error)
    ensures r.Ok? ==>
      var fields := ReadElements(Elements, s, c.element).value;
      var h := c.header.decode(fields.rest);
      && h.Ok?
      && r.value.value.header == h.value.value
      && r.value.value == FromElements(fields.value, h.value.value)
      && r.value.rest == h.value.rest
  {
    match ReadElements(Elements, s, c.element)
    case Err(e) => Err(e)
    case Ok(fields) =>
      match c.header.decode(fields.rest)
      case Err(e) => Err(e)
      case Ok(h) => Ok(Decoded(FromElements(fields.value, h.value), h.rest))
  }

  // ------------------------------------------------------------ properties

  /** The record is the format tag 160000, Height, Status, TxCount, File,
      DataPos and UndoPos, each in its fixed-width encoding, then the header. */
  lemma SerializeLayout(b: BlockIndex, c: IndexCodecs)
    requires Serialize(b, c).Ok?
    ensures Serialize(b, c).value ==
      c.element(Version).encode(ClientVersion).value
      + c.element(Height).encode(b.height).value
      + c.element(Status).encode(b.status).value
      + c.element(TxCount).encode(b.txCount).value
      + c.element(File).encode(b.file).value
      + c.element(DataPos).encode(b.dataPos).value
      + c.element(UndoPos).encode(b.undoPos).value
      + c.header.encode(b.header).value
  {
    var w := ElementWriter(b, c);
    ElementValues(b);
    FieldsLayout(w);
    forall e ensures w(e).out == c.element(e).encode(ElementValue(b, e)).value {
    }
  }

  /** The value each element carries for b. */
  lemma ElementValues(b: BlockIndex)
    ensures ElementValue(b, Version) == ClientVersion && ElementValue(b, Height) == b.height
    ensures ElementValue(b, Status) == b.status && ElementValue(b, TxCount) == b.txCount
    ensures ElementValue(b, File) == b.file && ElementValue(b, DataPos) == b.dataPos
    ensures ElementValue(b, UndoPos) == b.undoPos
  {
  }

  /** A successful run of element writes is their outputs, in order. */
  lemma FieldsLayout(w: Element -> Written)
    requires WriteEach(Elements, w).status.Pass?
    ensures WriteEach(Elements, w).out ==
      w(Version).out + w(Height).out + w(Status).out + w(TxCount).out + w(File).out + w(DataPos).out + w(UndoPos).out
  {
    var xs := Elements;
    WriteEachLayout(xs, w);
    assert OutputOf(xs, w, 1) == w(Version).out;
    assert OutputOf(xs, w, 2) == OutputOf(xs, w, 1) + w(Height).out;
    assert OutputOf(xs, w, 3) == OutputOf(xs, w, 2) + w(Status).out;
    assert OutputOf(xs, w, 4) == OutputOf(xs, w, 3) + w(TxCount).out;
    assert OutputOf(xs, w, 5) == OutputOf(xs, w, 4) + w(File).out;
    assert OutputOf(xs, w, 6) == OutputOf(xs, w, 5) + w(DataPos).out;
    assert OutputOf(xs, w, 7) == OutputOf(xs, w, 6) + w(UndoPos).out;
  }

  /** Reading back the elements written for b yields b's value for each of
      them, in order, and leaves the following bytes unread. */
  lemma {:induction false} ReadElementsAfterWrite(es: seq<Element>, b: BlockIndex, c: IndexCodecs, rest: Bytes)
    requires forall e :: RoundTrips(c.element(e))
    requires WriteEach(es, ElementWriter(b, c)).status.Pass?
    ensures var r := ReadElements(es, WriteEach(es, ElementWriter(b, c)).out + rest, c.element);
      && r.Ok?
      && r.value.rest == rest
      && forall i :: 0 <= i < |es| ==> r.value.value[i] == ElementValue(b, es[i])
  {
    if es != [] {
      var w := ElementWriter(b, c);
      var tail := WriteEach(es[1..], w);
      var codec, x := c.element(es[0]), ElementValue(b, es[0]);
      ReadElementsAfterWrite(es[1..], b, c, rest);
      var others := ReadElements(es[1..], tail.out + rest, c.element).value;
      assert WriteEach(es, w).out + rest == w(es[0]).out + (tail.out + rest);
      assert codec.encode(x).Ok? && w(es[0]).out == codec.encode(x).value;
      assert RoundTrips(codec);
      assert codec.decode(codec.encode(x).value + (tail.out + rest)) == Ok(Decoded(x, tail.out + rest));
      var r := ReadElements(es, w(es[0]).out + (tail.out + rest), c.element);
      assert r == Ok(Decoded([x] + others.value, rest));
      forall i | 1 <= i < |es| ensures r.value.value[i] == ElementValue(b, es[i]) {
        assert es[1..][i - 1] == es[i];
      }
    }
  }

  /** Unserialize restores every persisted field of a record Serialize
      wrote, and leaves the bytes after it unread. */
  lemma RoundTrip(b: BlockIndex, c: IndexCodecs, rest: Bytes)
    requires forall e :: RoundTrips(c.element(e))
    requires RoundTrips(c.header)
    requires Serialize(b, c).Ok?
    ensures Unserialize(Serialize(b, c).value + rest, c) == Ok(Decoded(b, rest))
  {
    var fields := WriteEach(Elements, ElementWriter(b, c));
    var hdr := c.header.encode(b.header).value;
    SerializeSplit(b, c, rest);
    ReadElementsAfterWrite(Elements, b, c, hdr + rest);
    var vs := ReadElements(Elements, fields.out + (hdr + rest), c.element).value.value;
    assert c.header.decode(hdr + rest) == Ok(Decoded(b.header, rest));
    FromWrittenElements(b, vs);
  }

  /** A written record is the elements' bytes followed by the header's. */
  lemma SerializeSplit(b: BlockIndex, c: IndexCodecs, rest: Bytes)
    requires Serialize(b, c).Ok?
    ensures WriteEach(Elements, ElementWriter(b, c)).status.Pass?
    ensures Serialize(b, c).value + rest == WriteEach(Elements, ElementWriter(b, c)).out + (c.header.encode(b.header).value + rest)
  {
  }

  /** The values written for b's elements rebuild b. */
  lemma FromWrittenElements(b: BlockIndex, vs: seq<int>)
    requires |vs| == |Elements|
    requires forall i :: 0 <= i < |Elements| ==> vs[i] == ElementValue(b, Elements[i])
    ensures FromElements(vs, b.header) == b
  {
    ElementValues(b);
    assert vs[1] == b.height && vs[2] == b.status && vs[3] == b.txCount;
    assert vs[4] == b.file && vs[5] == b.dataPos && vs[6] == b.undoPos;
  }

  /** Whatever four bytes stand in the format-tag position, Unserialize
      gives the same result: the tag is read but never checked. */
  lemma VersionNotChecked(v1: Bytes, v2: Bytes, tail: Bytes, c: IndexCodecs)
    requires FixedWidth(c.element(Version), 4)
    requires |v1| == 4 && |v2| == 4
    ensures Unserialize(v1 + tail, c) == Unserialize(v2 + tail, c)
  {
    var tag := c.element(Version);
    assert (v1 + tail)[4..] == tail;
    assert (v2 + tail)[4..] == tail;
    var d1 := tag.decode(v1 + tail).value;
    var d2 := tag.decode(v2 + tail).value;
    var others := ReadElements(Elements[1..], tail, c.element);
    if others.Ok? {
      var r1 := ReadElements(Elements, v1 + tail, c.element).value;
      var r2 := ReadElements(Elements, v2 + tail, c.element).value;
      assert r1.rest == r2.rest;
      assert r1.value[1..] == others.value.value == r2.value[1..];
    }
  }

  /** A record whose format tag was replaced by any four bytes still reads
      back as the record that was written. */
  lemma AnyVersionTagAccepted(b: BlockIndex, v: Bytes, c: IndexCodecs, rest: Bytes)
    requires forall e :: RoundTrips(c.element(e))
    requires RoundTrips(c.header)
    requires FixedWidth(c.element(Version), 4)
    requires Serialize(b, c).Ok?
    requires |v| == 4
    ensures |Serialize(b, c).value| >= 4
    ensures Unserialize(v + Serialize(b, c).value[4..] + rest, c) == Ok(Decoded(b, rest))
  {
    var out := Serialize(b, c).value;
    var tag := c.element(Version).encode(ClientVersion).value;
    TagLeadsRecord(b, c);
    RoundTrip(b, c, rest);
    Regroup(tag, out[4..], rest);
    VersionNotChecked(v, tag, out[4..] + rest, c);
    Regroup(v, out[4..], rest);
  }

  /** A written record starts with the 4-byte encoding of the format tag. */
  lemma TagLeadsRecord(b: BlockIndex, c: IndexCodecs)
    requires FixedWidth(c.element(Version), 4)
    requires Serialize(b, c).Ok?
    ensures |c.element(Version).encode(ClientVersion).value| == 4
    ensures Serialize(b, c).value == c.element(Version).encode(ClientVersion).value + Serialize(b, c).value[4..]
  {
    SerializeLayout(b, c);
  }

  lemma Regroup(a: Bytes, b: Bytes, c: Bytes)
    ensures a + b + c == a + (b + c)
  {
  }

  /** When the fixed-width elements cannot be read, Unserialize returns that
      error without touching the header: its result does not depend on the
      header codec. */
  lemma ElementFailureSkipsHeader(s: Bytes, c: IndexCodecs, other: Codec<Header>)
    requires ReadElements(Elements, s, c.element).Err?
    ensures Unserialize(s, c) == Err(ReadElements(Elements, s, c.element).error)
    ensures Unserialize(s, c.(header := other)) == Unserialize(s, c)
  {
  }

  /** The total width of the elements es. */
  function Width(es: seq<Element>, width: Element -> nat): nat {
    if es == [] then 0 else width(es[0]) + Width(es[1..], width)
  }

  /** With fixed-width element codecs, reading es takes exactly their total
      width and fails on anything shorter. */
  lemma {:induction false} ReadElementsFixedWidth(es: seq<Element>, s: Bytes, element: Element -> Codec<int>, width: Element -> nat)
    requires forall e :: FixedWidth(element(e), width(e))
    ensures |s| < Width(es, width) ==> ReadElements(es, s, element).Err?
    ensures |s| >= Width(es, width) ==> ReadElements(es, s, element).Ok? && ReadElements(es, s, element).value.rest == s[Width(es, width)..]
  {
    if es != [] {
      var w := width(es[0]);
      if |s| >= w {
        ReadElementsFixedWidth(es[1..], s[w..], element, width);
        if |s| >= Width(es, width) {
          assert s[w..][Width(es[1..], width)..] == s[Width(es, width)..];
        }
      }
    }
  }

  /** The width of a whole record. */
  function RecordWidth(width: Element -> nat, headerWidth: nat): nat {
    width(Version) + width(Height) + width(Status) + width(TxCount) + width(File) + width(DataPos) + width(UndoPos) + headerWidth
  }

  /** With fixed-width codecs every record has the same size. */
  lemma FixedSizeRecord(b: BlockIndex, c: IndexCodecs, width: Element -> nat, headerWidth: nat)
    requires forall e :: FixedWidth(c.element(e), width(e))
    requires FixedWidth(c.header, headerWidth)
    requires Serialize(b, c).Ok?
    ensures |Serialize(b, c).value| == RecordWidth(width, headerWidth)
  {
    SerializeLayout(b, c);
  }

  /** With fixed-width codecs, a stream that ends before a whole record is a
      failed read. */
  lemma TruncatedRecordRejected(s: Bytes, c: IndexCodecs, width: Element -> nat, headerWidth: nat)
    requires forall e :: FixedWidth(c.element(e), width(e))
    requires FixedWidth(c.header, headerWidth)
    requires |s| < RecordWidth(width, headerWidth)
    ensures Unserialize(s, c).Err?
  {
    var fieldsWidth := Width(Elements, width);
    assert fieldsWidth + headerWidth == RecordWidth(width, headerWidth);
    ReadElementsFixedWidth(Elements, s, c.element, width);
    var fields := ReadElements(Elements, s, c.element);
    if fields.Ok? {
      assert |fields.value.rest| < headerWidth;
      assert c.header.decode(fields.value.rest).Err?;
    }
  }

  lemma {:induction false} ReadElementsConsumesPrefix(es: seq<Element>, s: Bytes, element: Element -> Codec<int>)
    requires forall e :: ConsumesPrefix(element(e))
    ensures ReadElements(es, s, element).Ok? ==> IsSuffix(ReadElements(es, s, element).value.rest, s)
  {
    if es != [] && element(es[0]).decode(s).Ok? {
      var mid := element(es[0]).decode(s).value.rest;
      assert ConsumesPrefix(element(es[0]));
      ReadElementsConsumesPrefix(es[1..], mid, element);
      if ReadElements(es[1..], mid, element).Ok? {
        SuffixTransitive(ReadElements(es[1..], mid, element).value.rest, mid, s);
      }
    }
  }

  /** When the element and header decoders only consume a prefix of their
      input, so does Unserialize. */
  lemma UnserializeConsumesPrefix(s: Bytes, c: IndexCodecs)
    requires forall e :: ConsumesPrefix(c.element(e))
    requires ConsumesPrefix(c.header)
    ensures Unserialize(s, c).Ok? ==> IsSuffix(Unserialize(s, c).value.rest, s)
  {
    ReadElementsConsumesPrefix(Elements, s, c.element);
    var fields := ReadElements(Elements, s, c.element);
    if fields.Ok? && c.header.decode(fields.value.rest).Ok? {
      SuffixTransitive(c.header.decode(fields.value.rest).value.rest, fields.value.rest, s);
    }
  }
}

=== FILE: streams.dfy ===
/** Byte streams, error values and the contracts of the collaborating codecs
    shared by the undo log and the block-index record.

    A stream is a plain byte sequence. A decoder takes the unread input and
    returns the value together with what it left unread. An encoder returns the
    bytes it hands to the writer, or the error the write reported. */
module Streams {

  type byte = bv8
  type Bytes = seq<byte>

  /** Failures a read or a write can report. IoError and Corrupt name the
      kinds of error the codec parameters return; nothing in this model
      constructs them, it passes those errors through unchanged. */
  datatype Error =
    | IoError                   // the underlying stream failed: short read, closed or full sink
    | Corrupt                   // a nested codec rejected malformed content
    | TooManyInputs(count: nat) // a coin count above the per-transaction bound
    | LengthOutOfRange(count: nat) // a count too large for a slice to be allocated

  datatype Result<T> = Ok(value: T) | Err(error: Error)

  /** The error value a Go method returns: nil (Pass) or an error. */
  datatype Outcome = Pass | Fail(error: Error)

  /** A decoded value and the input left after it. */
  datatype Decoded<T> = Decoded(value: T, rest: Bytes)

  /** An injected serializer/deserializer pair for values of type T. */
  datatype Codec<!T> = Codec(encode: T -> Result<Bytes>, decode: Bytes -> Result<Decoded<T>>)

  /** Whatever follows an encoding, decoding reads back exactly the encoded
      value and leaves the rest untouched. */
  ghost predicate RoundTrips<T(!new)>(c: Codec<T>) {
    forall x, rest :: c.encode(x).Ok? ==> c.decode(c.encode(x).value + rest) == Ok(Decoded(x, rest))
  }

  predicate IsSuffix(rest: Bytes, s: Bytes) {
    |rest| <= |s| && s[|s| - |rest|..] == rest
  }

  /** Decoding only ever consumes a prefix of its input. */
  ghost predicate ConsumesPrefix<T>(c: Codec<T>) {
    forall s :: c.decode(s).Ok? ==> IsSuffix(c.decode(s).value.rest, s)
  }

  /** Every encoding is n bytes long, any n bytes decode, and fewer than n
      bytes are a short read. */
  ghost predicate FixedWidth<T(!new)>(c: Codec<T>, n: nat) {
    && (forall x :: c.encode(x).Ok? ==> |c.encode(x).value| == n)
    && (forall s: Bytes {:trigger c.decode(s)} :: |s| >= n ==> c.decode(s).Ok? && c.decode(s).value.rest == s[n..])
    && (forall s: Bytes {:trigger c.decode(s)} :: |s| < n ==> c.decode(s).Err?)
  }

  /** What a run of writes leaves behind: the bytes the writer received and
      the error returned to the caller. Bytes written before a failure stay. */
  datatype Written = Written(out: Bytes, status: Outcome)

  /** One primitive write: its bytes, or nothing and its error. */
  function Emit(r: Result<Bytes>): Written {
    match r
    case Ok(b) => Written(b, Pass)
    case Err(e) => Written([], Fail(e))
  }

  /** Run `next` only when `first` succeeded, as `if err != nil { return err }` does. */
  function Then(first: Written, next: Written): Written {
    if first.status.Fail? then first else Written(first.out + next.out, next.status)
  }

  /** Write every element in order, returning the first error. */
  function WriteEach<T>(xs: seq<T>, write: T -> Written): (w: Written)
    ensures w.status.Pass? <==> forall i :: 0 <= i < |xs| ==> write(xs[i]).status.Pass?
  {
    if xs == [] then Written([], Pass) else Then(write(xs[0]), WriteEach(xs[1..], write))
  }

  /** WriteEach succeeds exactly when every element's write does. */
  lemma WriteEachPass<T>(xs: seq<T>, write: T -> Written)
    ensures WriteEach(xs, write).status.Pass? <==> forall x :: x in xs ==> write(x).status.Pass?
  {
  }

  /** Writing a single element is just that element's write. */
  lemma WriteEachOne<T>(xs: seq<T>, write: T -> Written)
    requires |xs| == 1
    ensures WriteEach(xs, write) == write(xs[0])
  {
    assert xs[1..] == [];
    assert write(xs[0]).out + [] == write(xs[0]).out;
  }

  /** Two writers that write the same for every element of xs write the same
      for xs. */
  lemma {:induction false} WriteEachAgrees<T>(xs: seq<T>, w1: T -> Written, w2: T -> Written)
    requires forall i :: 0 <= i < |xs| ==> w1(xs[i]) == w2(xs[i])
    ensures WriteEach(xs, w1) == WriteEach(xs, w2)
  {
    if xs != [] {
      assert w1(xs[0]) == w2(xs[0]);
      assert forall i :: 0 <= i < |xs[1..]| ==> xs[1..][i] == xs[i + 1];
      WriteEachAgrees(xs[1..], w1, w2);
    }
  }

  /** Index of the first element whose write fails, |xs| when none does. */
  function FirstFailure<T>(xs: seq<T>, write: T -> Written): (k: nat)
    ensures k <= |xs|
    ensures forall i :: 0 <= i < k ==> write(xs[i]).status.Pass?
    ensures k < |xs| ==> write(xs[k]).status.Fail?
  {
    if xs == [] || write(xs[0]).status.Fail? then 0 else 1 + FirstFailure(xs[1..], write)
  }

  /** The bytes xs[..k] write, one after the other. */
  function OutputOf<T>(xs: seq<T>, write: T -> Written, k: nat): Bytes
    requires k <= |xs|
  {
    if k == 0 then [] else OutputOf(xs, write, k - 1) + write(xs[k - 1]).out
  }

  lemma {:induction false} OutputOfTail<T>(xs: seq<T>, write: T -> Written, k: nat)
    requires 1 <= k <= |xs|
    ensures OutputOf(xs, write, k) == write(xs[0]).out + OutputOf(xs[1..], write, k - 1)
  {
    if k > 1 {
      OutputOfTail(xs, write, k - 1);
      assert xs[1..][k - 2] == xs[k - 1];
    }
  }

  /** WriteEach stops at the first failing element: everything before it,
      plus whatever the failing write itself put out, reaches the writer. */
  lemma {:induction false} WriteEachLayout<T>(xs: seq<T>, write: T -> Written)
    ensures var k := FirstFailure(xs, write);
      if k == |xs| then WriteEach(xs, write) == Written(OutputOf(xs, write, |xs|), Pass)
      else WriteEach(xs, write) == Written(OutputOf(xs, write, k + 1), write(xs[k]).status)
  {
    if xs != [] {
      WriteEachLayout(xs[1..], write);
      var k := FirstFailure(xs, write);
      if write(xs[0]).status.Pass? {
        var k' := FirstFailure(xs[1..], write);
        assert k == k' + 1;
        if k' == |xs[1..]| {
          OutputOfTail(xs, write, |xs|);
        } else {
          OutputOfTail(xs, write, k + 1);
          assert xs[1..][k'] == xs[k];
        }
      } else {
        assert k == 0;
      }
    }
  }

  /** Read n values in order, stopping at the first error. */
  function ReadEach<T>(n: nat, s: Bytes, read: Bytes -> Result<Decoded<T>>): (r: Result<Decoded<seq<T>>>)
    ensures r.Ok? ==> |r.value.value| == n
    decreases n
  {
    if n == 0 then Ok(Decoded([], s))
    else
      match read(s)
      case Err(e) => Err(e)
      case Ok(first) =>
        match ReadEach(n - 1, first.rest, read)
        case Err(e) => Err(e)
        case Ok(others) => Ok(Decoded([first.value] + others.value, others.rest))
  }

  lemma SuffixTransitive(a: Bytes, b: Bytes, s: Bytes)
    requires IsSuffix(a, b) && IsSuffix(b, s)
    ensures IsSuffix(a, s)
  {
    assert s[|s| - |a|..] == s[|s| - |b|..][|b| - |a|..];
  }

  /** A reader that only consumes a prefix of its input, repeated, still
      only consumes a prefix. */
  lemma {:induction false} ReadEachConsumesPrefix<T>(n: nat, s: Bytes, read: Bytes -> Result<Decoded<T>>)
    requires forall t :: read(t).Ok? ==> IsSuffix(read(t).value.rest, t)
    ensures ReadEach(n, s, read).Ok? ==> IsSuffix(ReadEach(n, s, read).value.rest, s)
    decreases n
  {
    if n > 0 && read(s).Ok? {
      var mid := read(s).value.rest;
      ReadEachConsumesPrefix(n - 1, mid, read);
      if ReadEach(n - 1, mid, read).Ok? {
        SuffixTransitive(ReadEach(n - 1, mid, read).value.rest, mid, s);
      }
    }
  }

  /** Every element read satisfies p when every single read's value does. */
  lemma {:induction false} ReadEachAll<T>(n: nat, s: Bytes, read: Bytes -> Result<Decoded<T>>, p: T -> bool)
    requires forall t :: read(t).Ok? ==> p(read(t).value.value)
    ensures ReadEach(n, s, read).Ok? ==> forall i :: 0 <= i < n ==> p(ReadEach(n, s, read).value.value[i])
    decreases n
  {
    if n > 0 && read(s).Ok? {
      var first := read(s).value;
      ReadEachAll(n - 1, first.rest, read, p);
      var others := ReadEach(n - 1, first.rest, read);
      if others.Ok? {
        var all := [first.value] + others.value.value;
        assert ReadEach(n, s, read).value.value == all;
        forall i | 1 <= i < n ensures p(all[i]) {
          assert all[i] == others.value.value[i - 1];
        }
      }
    }
  }

  /** `read` recovers each element of xs from its successful write, whatever follows. */
  ghost predicate ReadsBack<T>(read: Bytes -> Result<Decoded<T>>, write: T -> Written, xs: seq<T>) {
    forall i, tail :: 0 <= i < |xs| && write(xs[i]).status.Pass? ==>
      read(write(xs[i]).out + tail) == Ok(Decoded(xs[i], tail))
  }

  /** Reading back as many elements as were written restores them in order
      and leaves the following bytes unread. */
  lemma {:induction false} ReadEachInvertsWriteEach<T>(xs: seq<T>, write: T -> Written, read: Bytes -> Result<Decoded<T>>, rest: Bytes)
    requires ReadsBack(read, write, xs)
    requires WriteEach(xs, write).status.Pass?
    ensures ReadEach(|xs|, WriteEach(xs, write).out + rest, read) == Ok(Decoded(xs, rest))
  {
    if xs == [] {
      assert WriteEach(xs, write).out + rest == rest;
    } else {
      var tail := WriteEach(xs[1..], write);
      assert ReadsBack(read, write, xs[1..]) by {
        forall i, t | 0 <= i < |xs[1..]| && write(xs[1..][i]).status.Pass?
          ensures read(write(xs[1..][i]).out + t) == Ok(Decoded(xs[1..][i], t))
        {
          assert xs[1..][i] == xs[i + 1];
        }
      }
      ReadEachInvertsWriteEach(xs[1..], write, read, rest);
      var s := write(xs[0]).out + (tail.out + rest);
      assert WriteEach(xs, write).out + rest == s;
      assert read(s) == Ok(Decoded(xs[0], tail.out + rest));
      assert ReadEach(|xs| - 1, tail.out + rest, read) == Ok(Decoded(xs[1..], rest));
      assert ReadEach(|xs|, s, read) == Ok(Decoded([xs[0]] + xs[1..], rest));
      assert [xs[0]] + xs[1..] == xs;
    }
  }

  /** After elements that were written successfully, bytes that do not
      decode make the read of more elements fail with their error. */
  lemma {:induction false} ReadEachStopsAtFailure<T>(xs: seq<T>, write: T -> Written, read: Bytes -> Result<Decoded<T>>, n: nat, t: Bytes)
    requires ReadsBack(read, write, xs)
    requires WriteEach(xs, write).status.Pass?
    requires |xs| < n
    requires read(t).Err?
    ensures ReadEach(n, WriteEach(xs, write).out + t, read) == Err(read(t).error)
  {
    if xs == [] {
      assert WriteEach(xs, write).out + t == t;
    } else {
      var tail := WriteEach(xs[1..], write);
      assert ReadsBack(read, write, xs[1..]) by {
        forall i, u | 0 <= i < |xs[1..]| && write(xs[1..][i]).status.Pass?
          ensures read(write(xs[1..][i]).out + u) == Ok(Decoded(xs[1..][i], u))
        {
          assert xs[1..][i] == xs[i + 1];
        }
      }
      ReadEachStopsAtFailure(xs[1..], write, read, n - 1, t);
      var s := write(xs[0]).out + (tail.out + t);
      assert WriteEach(xs, write).out + t == s;
      assert read(s) == Ok(Decoded(xs[0], tail.out + t));
      assert ReadEach(n - 1, tail.out + t, read) == Err(read(t).error);
    }
  }
}

=== FILE: undo.dfy ===
/** The undo log: for each transaction of a block, the coins its inputs spent
    (TxUndo), and for a block, the TxUndo of each of its transactions
    (BlockUndo), with their serialization. Models model/undo/undo.go. */
module Undo {
  import opened Streams

  /** A snapshot of one spent output; its byte format belongs to the UTXO layer. */
  type Coin(!new)

  datatype TxUndo = TxUndo(undoCoins: seq<Coin>)

  datatype BlockUndo = BlockUndo(txundo: seq<TxUndo>)

  /** The collaborators the undo codec is built on: the coin codec, the two
      varint codecs (util.WriteVarInt/ReadVarInt for TxUndo counts,
      util.WriteVarLenInt/ReadVarLenInt for BlockUndo counts), the
      configured bound MaxInputPerTx, and the largest length for which the
      runtime can allocate a slice of TxUndo pointers (`make` panics above it). */
  datatype UndoCodecs = UndoCodecs(
    coin: Codec<Coin>,
    varInt: Codec<nat>,
    varLenInt: Codec<nat>,
    maxInputPerTx: nat,
    maxSliceLen: nat)

  ghost predicate CodecsRoundTrip(c: UndoCodecs) {
    RoundTrips(c.coin) && RoundTrips(c.varInt) && RoundTrips(c.varLenInt)
  }

  /** What an in-place Unserialize leaves behind: the receiver's value after
      the call, and the unread input or the returned error. */
  datatype Loaded<T> = Loaded(receiver: T, outcome: Result<Bytes>)

  // ---------------------------------------------------------------- TxUndo

  function NewTxUndo(): (tu: TxUndo)
    ensures GetUndoCoins(tu) == []
  {
    TxUndo([])
  }

  function SetUndoCoins(tu: TxUndo, coins: seq<Coin>): (r: TxUndo)
    ensures GetUndoCoins(r) == coins
  {
    tu.(undoCoins := coins)
  }

  function GetUndoCoins(tu: TxUndo): seq<Coin> {
    tu.undoCoins
  }

  function CoinWriter(c: Codec<Coin>): Coin -> Written {
    coin => Emit(c.encode(coin))
  }

  /** The coin count, then every coin in order; stops at the first failed write. */
  function SerializeTxUndo(tu: TxUndo, c: UndoCodecs): (w: Written)
    ensures w.status.Pass? <==>
      && c.varInt.encode(|tu.undoCoins|).Ok?
      && forall i :: 0 <= i < |tu.undoCoins| ==> c.coin.encode(tu.undoCoins[i]).Ok?
  {
    Then(Emit(c.varInt.encode(|tu.undoCoins|)), WriteEach(tu.undoCoins, CoinWriter(c.coin)))
  }

  /** Reads the count, rejects a count above the bound before reading any
      coin (a panic in the Go code), then reads that many coins. The
      receiver is assigned only once every coin has decoded. */
  function UnserializeTxUndo(tu: TxUndo, s: Bytes, c: UndoCodecs): (r: Loaded<TxUndo>)
    ensures r.outcome.Err? ==> r.receiver == tu
    ensures c.varInt.decode(s).Err? ==> r == Loaded(tu, Err(c.varInt.decode(s).error))
    ensures r.outcome.Ok? ==>
      && c.varInt.decode(s).Ok?
      && |r.receiver.undoCoins| == c.varInt.decode(s).value.value <= c.maxInputPerTx
  {
    match c.varInt.decode(s)
    case Err(e) => Loaded(tu, Err(e))
    case Ok(count) =>
      if count.value > c.maxInputPerTx then Loaded(tu, Err(TooManyInputs(count.value)))
      else
        match ReadEach(count.value, count.rest, c.coin.decode)
        case Err(e) => Loaded(tu, Err(e))
        case Ok(coins) => Loaded(TxUndo(coins.value), Ok(coins.rest))
  }

  // ------------------------------------------------------------- BlockUndo

  /** The capacity hint only pre-sizes the slice. */
  function NewBlockUndo(capacity: nat): (bu: BlockUndo)
    ensures GetTxundo(bu) == []
  {
    BlockUndo([])
  }

  function GetTxundo(bu: BlockUndo): seq<TxUndo> {
    bu.txundo
  }

  function SetTxUndo(bu: BlockUndo, txUndo: seq<TxUndo>): (r: BlockUndo)
    ensures GetTxundo(r) == txUndo
  {
    bu.(txundo := txUndo)
  }

  function AddTxUndo(bu: BlockUndo, tu: TxUndo): (r: BlockUndo)
    ensures |GetTxundo(r)| == |GetTxundo(bu)| + 1
    ensures GetTxundo(r)[..|GetTxundo(bu)|] == GetTxundo(bu)
    ensures GetTxundo(r)[|GetTxundo(bu)|] == tu
  {
    bu.(txundo := bu.txundo + [tu])
  }

  function TxUndoWriter(c: UndoCodecs): TxUndo -> Written {
    tu => SerializeTxUndo(tu, c)
  }

  /** BlockUndo.Serialize as written: the error of the count
      write is dropped, and the loop returns after its first iteration. */
  function SerializeBlockUndoAsWritten(bu: BlockUndo, c: UndoCodecs): (w: Written)
    ensures w.status.Fail? ==> |bu.txundo| >= 1 && w.status == SerializeTxUndo(bu.txundo[0], c).status
  {
    var count := match c.varLenInt.encode(|bu.txundo|) case Ok(b) => b case Err(_) => [];
    if bu.txundo == [] then Written(count, Pass)
    else
      var first := SerializeTxUndo(bu.txundo[0], c);
      Written(count + first.out, first.status)
  }

  /** BlockUndo.Serialize as intended: the count, then every TxUndo in order;
      stops at the first failed write. */
  function SerializeBlockUndo(bu: BlockUndo, c: UndoCodecs): (w: Written)
    ensures w.status.Pass? <==>
      && c.varLenInt.encode(|bu.txundo|).Ok?
      && forall i :: 0 <= i < |bu.txundo| ==> SerializeTxUndo(bu.txundo[i], c).status.Pass?
  {
    Then(Emit(c.varLenInt.encode(|bu.txundo|)), WriteEach(bu.txundo, TxUndoWriter(c)))
  }

  /** Codecs whose writer never fails, as writes to a bytes.Buffer do not. */
  ghost predicate AcceptsEveryWrite(buf: UndoCodecs) {
    && (forall n: nat :: buf.varInt.encode(n).Ok?)
    && (forall n: nat :: buf.varLenInt.encode(n).Ok?)
    && (forall x: Coin :: buf.coin.encode(x).Ok?)
  }

  /** The codecs writing into a fresh bytes.Buffer, measured against the
      codecs c of a destination writer: the buffer accepts every write, and
      puts out the same bytes as the destination wherever the destination
      accepts the write. */
  ghost predicate MeasuringBuffer(buf: UndoCodecs, c: UndoCodecs) {
    && AcceptsEveryWrite(buf)
    && (forall n: nat :: c.varInt.encode(n).Ok? ==> c.varInt.encode(n) == buf.varInt.encode(n))
    && (forall n: nat :: c.varLenInt.encode(n).Ok? ==> c.varLenInt.encode(n) == buf.varLenInt.encode(n))
    && (forall x: Coin :: c.coin.encode(x).Ok? ==> c.coin.encode(x) == buf.coin.encode(x))
  }

  /** The length of what Serialize puts into a fresh buffer whose codecs are
      buf; it does not depend on any destination writer. */
  function SerializeSize(bu: BlockUndo, buf: UndoCodecs): nat {
    |SerializeBlockUndoAsWritten(bu, buf).out|
  }

  /** Reads one TxUndo into a fresh value, as the BlockUndo loop does. */
  function TxUndoReader(c: UndoCodecs): Bytes -> Result<Decoded<TxUndo>> {
    s =>
      var l := UnserializeTxUndo(NewTxUndo(), s, c);
      match l.outcome
      case Ok(rest) => Ok(Decoded(l.receiver, rest))
      case Err(e) => Err(e)
  }

  /** Allocates room for `count` TxUndo (a count the runtime cannot allocate
      is a panic in the Go code), reads them, and commits them to the
      receiver only when all decoded. */
  function LoadTxUndos(bu: BlockUndo, count: nat, s: Bytes, c: UndoCodecs): Loaded<BlockUndo> {
    if count > c.maxSliceLen then Loaded(bu, Err(LengthOutOfRange(count)))
    else
      match ReadEach(count, s, TxUndoReader(c))
      case Err(e) => Loaded(bu, Err(e))
      case Ok(txundos) => Loaded(BlockUndo(txundos.value), Ok(txundos.rest))
  }

  /** BlockUndo.Unserialize as written: the error of the count read is
      overwritten unchecked. The reader is taken to return a zero count with
      its error, so the loop runs zero times. */
  function UnserializeBlockUndoAsWritten(bu: BlockUndo, s: Bytes, c: UndoCodecs): (r: Loaded<BlockUndo>)
    ensures r.outcome.Err? ==> r.receiver == bu
    ensures r.outcome.Ok? ==>
      |r.receiver.txundo| == (if c.varLenInt.decode(s).Ok? then c.varLenInt.decode(s).value.value else 0)
  {
    match c.varLenInt.decode(s)
    case Err(_) => LoadTxUndos(bu, 0, s, c)
    case Ok(count) => LoadTxUndos(bu, count.value, count.rest, c)
  }

  /** BlockUndo.Unserialize as intended: a failed count read is returned. */
  function UnserializeBlockUndo(bu: BlockUndo, s: Bytes, c: UndoCodecs): (r: Loaded<BlockUndo>)
    ensures r.outcome.Err? ==> r.receiver == bu
    ensures r.outcome.Ok? ==>
      && c.varLenInt.decode(s).Ok?
      && |r.receiver.txundo| == c.varLenInt.decode(s).value.value <= c.maxSliceLen
  {
    match c.varLenInt.decode(s)
    case Err(e) => Loaded(bu, Err(e))
    case Ok(count) => LoadTxUndos(bu, count.value, count.rest, c)
  }

  // ------------------------------------------------------------ properties

  /** TxUndo.Serialize writes the count, then each coin's encoding in list
      order; at the first coin that cannot be written it stops, keeping the
      bytes already written and returning that coin's error. */
  lemma SerializeTxUndoLayout(tu: TxUndo, c: UndoCodecs)
    ensures var n := |tu.undoCoins|;
      var k := FirstFailure(tu.undoCoins, CoinWriter(c.coin));
      && (c.varInt.encode(n).Err? ==> SerializeTxUndo(tu, c) == Written([], Fail(c.varInt.encode(n).error)))
      && (c.varInt.encode(n).Ok? && k == n ==>
            SerializeTxUndo(tu, c) == Written(c.varInt.encode(n).value + OutputOf(tu.undoCoins, CoinWriter(c.coin), n), Pass))
      && (c.varInt.encode(n).Ok? && k < n ==>
            SerializeTxUndo(tu, c) == Written(c.varInt.encode(n).value + OutputOf(tu.undoCoins, CoinWriter(c.coin), k),
                                              Fail(c.coin.encode(tu.undoCoins[k]).error)))
  {
    WriteEachLayout(tu.undoCoins, CoinWriter(c.coin));
  }

  /** Coins are written by their own codec, so the coin codec reads them back. */
  lemma CoinsReadBack(coins: seq<Coin>, c: Codec<Coin>)
    requires RoundTrips(c)
    ensures ReadsBack(c.decode, CoinWriter(c), coins)
  {
  }

  /** A TxUndo within the bound that was written successfully reads back
      as the same coins in the same order, whatever the receiver held, and
      the bytes after it stay unread. */
  lemma TxUndoRoundTrip(tu: TxUndo, prior: TxUndo, c: UndoCodecs, rest: Bytes)
    requires RoundTrips(c.coin) && RoundTrips(c.varInt)
    requires |tu.undoCoins| <= c.maxInputPerTx
    requires SerializeTxUndo(tu, c).status.Pass?
    ensures UnserializeTxUndo(prior, SerializeTxUndo(tu, c).out + rest, c) == Loaded(tu, Ok(rest))
  {
    var head := c.varInt.encode(|tu.undoCoins|).value;
    var body := WriteEach(tu.undoCoins, CoinWriter(c.coin));
    assert SerializeTxUndo(tu, c).out + rest == head + (body.out + rest);
    CoinsReadBack(tu.undoCoins, c.coin);
    ReadEachInvertsWriteEach(tu.undoCoins, CoinWriter(c.coin), c.coin.decode, rest);
  }

  /** A count above the bound is rejected before any coin is read: the
      result does not depend on the coin codec or on the bytes after the
      count, and the receiver keeps its value. */
  lemma TooManyInputsBeforeCoins(tu: TxUndo, count: nat, after: Bytes, s: Bytes, c: UndoCodecs, other: Codec<Coin>)
    requires c.varInt.decode(s) == Ok(Decoded(count, after))
    requires count > c.maxInputPerTx
    ensures UnserializeTxUndo(tu, s, c) == Loaded(tu, Err(TooManyInputs(count)))
    ensures UnserializeTxUndo(tu, s, c.(coin := other)) == UnserializeTxUndo(tu, s, c)
  {
  }

  /** Serialize does not check the bound, so a TxUndo with more coins than
      MaxInputPerTx is written without error but cannot be read back. */
  lemma OversizedTxUndoRejected(tu: TxUndo, prior: TxUndo, c: UndoCodecs, rest: Bytes)
    requires RoundTrips(c.varInt)
    requires |tu.undoCoins| > c.maxInputPerTx
    requires SerializeTxUndo(tu, c).status.Pass?
    ensures UnserializeTxUndo(prior, SerializeTxUndo(tu, c).out + rest, c) == Loaded(prior, Err(TooManyInputs(|tu.undoCoins|)))
  {
    var head := c.varInt.encode(|tu.undoCoins|).value;
    var body := WriteEach(tu.undoCoins, CoinWriter(c.coin));
    assert SerializeTxUndo(tu, c).out + rest == head + (body.out + rest);
  }

  /** A stream that ends right after a non-zero count is a failed read of
      the first coin, and the receiver keeps its value. */
  lemma TruncatedTxUndoRejected(prior: TxUndo, n: nat, c: UndoCodecs)
    requires RoundTrips(c.varInt)
    requires 1 <= n <= c.maxInputPerTx
    requires c.varInt.encode(n).Ok?
    requires c.coin.decode([]).Err?
    ensures UnserializeTxUndo(prior, c.varInt.encode(n).value, c) == Loaded(prior, Err(c.coin.decode([]).error))
  {
    assert c.varInt.encode(n).value + [] == c.varInt.encode(n).value;
  }

  /** After coins that were written successfully, bytes that are not a coin
      make Unserialize return the coin decoder's error for them, keeping the
      receiver, whenever more coins were announced than precede them. */
  lemma CoinFailureReported(prior: TxUndo, coins: seq<Coin>, n: nat, t: Bytes, c: UndoCodecs)
    requires RoundTrips(c.coin) && RoundTrips(c.varInt)
    requires |coins| < n <= c.maxInputPerTx
    requires c.varInt.encode(n).Ok?
    requires WriteEach(coins, CoinWriter(c.coin)).status.Pass?
    requires c.coin.decode(t).Err?
    ensures UnserializeTxUndo(prior, c.varInt.encode(n).value + WriteEach(coins, CoinWriter(c.coin)).out + t, c)
         == Loaded(prior, Err(c.coin.decode(t).error))
  {
    var head := c.varInt.encode(n).value;
    var body := WriteEach(coins, CoinWriter(c.coin)).out;
    assert head + body + t == head + (body + t);
    assert c.varInt.decode(head + (body + t)) == Ok(Decoded(n, body + t));
    CoinsReadBack(coins, c.coin);
    ReadEachStopsAtFailure(coins, CoinWriter(c.coin), c.coin.decode, n, t);
  }

  /** Every TxUndo that the intended serializer writes is read back by the
      TxUndo reader the BlockUndo loop uses. */
  lemma TxUndosReadBack(txundo: seq<TxUndo>, c: UndoCodecs)
    requires RoundTrips(c.coin) && RoundTrips(c.varInt)
    requires forall i :: 0 <= i < |txundo| ==> |txundo[i].undoCoins| <= c.maxInputPerTx
    ensures ReadsBack(TxUndoReader(c), TxUndoWriter(c), txundo)
  {
    forall i, tail | 0 <= i < |txundo| && TxUndoWriter(c)(txundo[i]).status.Pass?
      ensures TxUndoReader(c)(TxUndoWriter(c)(txundo[i]).out + tail) == Ok(Decoded(txundo[i], tail))
    {
      TxUndoRoundTrip(txundo[i], NewTxUndo(), c, tail);
    }
  }

  /** The intended BlockUndo serialization reads back entry for entry, in
      order, for any number of entries. */
  lemma BlockUndoRoundTrip(bu: BlockUndo, prior: BlockUndo, c: UndoCodecs, rest: Bytes)
    requires CodecsRoundTrip(c)
    requires forall i :: 0 <= i < |bu.txundo| ==> |bu.txundo[i].undoCoins| <= c.maxInputPerTx
    requires |bu.txundo| <= c.maxSliceLen
    requires SerializeBlockUndo(bu, c).status.Pass?
    ensures UnserializeBlockUndo(prior, SerializeBlockUndo(bu, c).out + rest, c) == Loaded(bu, Ok(rest))
  {
    var head := c.varLenInt.encode(|bu.txundo|).value;
    var body := WriteEach(bu.txundo, TxUndoWriter(c));
    assert SerializeBlockUndo(bu, c).out + rest == head + (body.out + rest);
    TxUndosReadBack(bu.txundo, c);
    ReadEachInvertsWriteEach(bu.txundo, TxUndoWriter(c), TxUndoReader(c), rest);
  }

  /** After entries that were written successfully, bytes that are not a
      TxUndo make Unserialize return the TxUndo reader's error for them,
      keeping the receiver, whenever more entries were announced than
      precede them. The deserializer as written behaves the same. */
  lemma EntryFailureReported(prior: BlockUndo, entries: seq<TxUndo>, n: nat, t: Bytes, c: UndoCodecs)
    requires CodecsRoundTrip(c)
    requires forall i :: 0 <= i < |entries| ==> |entries[i].undoCoins| <= c.maxInputPerTx
    requires |entries| < n <= c.maxSliceLen
    requires c.varLenInt.encode(n).Ok?
    requires WriteEach(entries, TxUndoWriter(c)).status.Pass?
    requires UnserializeTxUndo(NewTxUndo(), t, c).outcome.Err?
    ensures var s := c.varLenInt.encode(n).value + WriteEach(entries, TxUndoWriter(c)).out + t;
      var e := UnserializeTxUndo(NewTxUndo(), t, c).outcome.error;
      && UnserializeBlockUndo(prior, s, c) == Loaded(prior, Err(e))
      && UnserializeBlockUndoAsWritten(prior, s, c) == Loaded(prior, Err(e))
  {
    var head := c.varLenInt.encode(n).value;
    var body := WriteEach(entries, TxUndoWriter(c)).out;
    assert head + body + t == head + (body + t);
    assert c.varLenInt.decode(head + (body + t)) == Ok(Decoded(n, body + t));
    TxUndosReadBack(entries, c);
    assert TxUndoReader(c)(t) == Err(UnserializeTxUndo(NewTxUndo(), t, c).outcome.error);
    ReadEachStopsAtFailure(entries, TxUndoWriter(c), TxUndoReader(c), n, t);
  }

  /** A BlockUndo count too large to allocate is rejected before any entry
      is read, by both deserializers: the result does not depend on the coin
      codec, and the receiver keeps its value. */
  lemma UnallocatableCountRejected(prior: BlockUndo, s: Bytes, count: nat, after: Bytes, c: UndoCodecs, other: Codec<Coin>)
    requires c.varLenInt.decode(s) == Ok(Decoded(count, after))
    requires count > c.maxSliceLen
    ensures UnserializeBlockUndo(prior, s, c) == Loaded(prior, Err(LengthOutOfRange(count)))
    ensures UnserializeBlockUndoAsWritten(prior, s, c) == Loaded(prior, Err(LengthOutOfRange(count)))
    ensures UnserializeBlockUndo(prior, s, c.(coin := other)) == UnserializeBlockUndo(prior, s, c)
  {
  }

  /** With no entry the serializer as written writes the count 0 and nothing else. */
  lemma AsWrittenEmpty(bu: BlockUndo, c: UndoCodecs)
    requires bu.txundo == []
    requires c.varLenInt.encode(0).Ok?
    ensures SerializeBlockUndoAsWritten(bu, c) == Written(c.varLenInt.encode(0).value, Pass)
  {
  }

  /** The serializer as written puts out the count and only the first entry:
      its output does not depend on any entry after the first. */
  lemma AsWrittenStopsAfterFirst(bu: BlockUndo, c: UndoCodecs, others: seq<TxUndo>)
    requires |bu.txundo| >= 1
    requires |others| == |bu.txundo| - 1
    requires c.varLenInt.encode(|bu.txundo|).Ok?
    ensures SerializeBlockUndoAsWritten(bu, c) ==
      Written(c.varLenInt.encode(|bu.txundo|).value + SerializeTxUndo(bu.txundo[0], c).out,
              SerializeTxUndo(bu.txundo[0], c).status)
    ensures SerializeBlockUndoAsWritten(bu, c) == SerializeBlockUndoAsWritten(BlockUndo([bu.txundo[0]] + others), c)
  {
  }

  /** With no entry, or one, the pair of Serialize and Unserialize as written
      round-trips. */
  lemma AsWrittenRoundTripUpToOne(bu: BlockUndo, prior: BlockUndo, c: UndoCodecs, rest: Bytes)
    requires CodecsRoundTrip(c)
    requires |bu.txundo| <= 1 && |bu.txundo| <= c.maxSliceLen
    requires forall i :: 0 <= i < |bu.txundo| ==> |bu.txundo[i].undoCoins| <= c.maxInputPerTx
    requires c.varLenInt.encode(|bu.txundo|).Ok?
    requires SerializeBlockUndoAsWritten(bu, c).status.Pass?
    ensures SerializeBlockUndoAsWritten(bu, c) == SerializeBlockUndo(bu, c)
    ensures UnserializeBlockUndoAsWritten(prior, SerializeBlockUndoAsWritten(bu, c).out + rest, c) == Loaded(bu, Ok(rest))
  {
    if |bu.txundo| == 1 {
      WriteEachOne(bu.txundo, TxUndoWriter(c));
    }
    BlockUndoRoundTrip(bu, prior, c, rest);
  }

  /** With two or more entries the serializer as written loses every entry
      after the first: reading its output back runs out of input at the
      second entry, with the deserializer as written and the corrected one. */
  lemma AsWrittenLosesLaterEntries(bu: BlockUndo, prior: BlockUndo, c: UndoCodecs)
    requires CodecsRoundTrip(c)
    requires 2 <= |bu.txundo| <= c.maxSliceLen
    requires |bu.txundo[0].undoCoins| <= c.maxInputPerTx
    requires c.varLenInt.encode(|bu.txundo|).Ok?
    requires SerializeBlockUndoAsWritten(bu, c).status.Pass?
    requires c.varInt.decode([]).Err?
    ensures UnserializeBlockUndo(prior, SerializeBlockUndoAsWritten(bu, c).out, c) == Loaded(prior, Err(c.varInt.decode([]).error))
    ensures UnserializeBlockUndoAsWritten(prior, SerializeBlockUndoAsWritten(bu, c).out, c) == Loaded(prior, Err(c.varInt.decode([]).error))
  {
    var n := |bu.txundo|;
    var head := c.varLenInt.encode(n).value;
    var first := SerializeTxUndo(bu.txundo[0], c);
    var reader := TxUndoReader(c);
    var e := c.varInt.decode([]).error;
    assert SerializeBlockUndoAsWritten(bu, c).out == head + first.out;
    assert c.varLenInt.decode(head + first.out) == Ok(Decoded(n, first.out));
    TxUndoRoundTrip(bu.txundo[0], NewTxUndo(), c, []);
    assert first.out + [] == first.out;
    assert reader(first.out) == Ok(Decoded(bu.txundo[0], []));
    assert reader([]) == Err(e);
    assert ReadEach(n - 1, [], reader) == Err(e);
    assert ReadEach(n, first.out, reader) == Err(e);
  }

  /** A TxUndo the destination accepts goes into the buffer byte for byte. */
  lemma MeasuredTxUndo(tu: TxUndo, c: UndoCodecs, buf: UndoCodecs)
    requires MeasuringBuffer(buf, c)
    requires SerializeTxUndo(tu, c).status.Pass?
    ensures SerializeTxUndo(tu, buf) == SerializeTxUndo(tu, c)
  {
    var coins := tu.undoCoins;
    assert c.varInt.encode(|coins|) == buf.varInt.encode(|coins|);
    assert forall i :: 0 <= i < |coins| ==> c.coin.encode(coins[i]) == buf.coin.encode(coins[i]);
    WriteEachAgrees(coins, CoinWriter(c.coin), CoinWriter(buf.coin));
  }

  /** Measuring into the buffer gives the length of what the serializer as
      written hands to a destination that accepts the count and the first
      TxUndo, the only writes it makes. */
  lemma SerializeSizeMeasuresDestination(bu: BlockUndo, c: UndoCodecs, buf: UndoCodecs)
    requires MeasuringBuffer(buf, c)
    requires c.varLenInt.encode(|bu.txundo|).Ok?
    requires bu.txundo != [] ==> SerializeTxUndo(bu.txundo[0], c).status.Pass?
    ensures SerializeSize(bu, buf) == |SerializeBlockUndoAsWritten(bu, c).out|
  {
    assert c.varLenInt.encode(|bu.txundo|) == buf.varLenInt.encode(|bu.txundo|);
    if bu.txundo != [] {
      MeasuredTxUndo(bu.txundo[0], c, buf);
    }
  }

  /** Whatever the destination, SerializeSize counts the var-len-int count
      and, when there is one, the first TxUndo: the buffer's writes never
      fail, so no error cuts the measurement short. */
  lemma SerializeSizeOfBuffer(bu: BlockUndo, buf: UndoCodecs)
    requires AcceptsEveryWrite(buf)
    ensures SerializeBlockUndoAsWritten(bu, buf).status.Pass?
    ensures SerializeSize(bu, buf) ==
      |buf.varLenInt.encode(|bu.txundo|).value| + (if bu.txundo == [] then 0 else |SerializeTxUndo(bu.txundo[0], buf).out|)
    ensures bu.txundo == [] ==> SerializeSize(bu, buf) == |buf.varLenInt.encode(0).value|
  {
    if bu.txundo != [] {
      var coins := bu.txundo[0].undoCoins;
      assert buf.varInt.encode(|coins|).Ok?;
      assert forall i :: 0 <= i < |coins| ==> buf.coin.encode(coins[i]).Ok?;
    }
  }

  /** SerializeSize is exact for no entry or one. */
  lemma SerializeSizeExactUpToOne(bu: BlockUndo, c: UndoCodecs, buf: UndoCodecs)
    requires MeasuringBuffer(buf, c)
    requires |bu.txundo| <= 1
    requires SerializeBlockUndo(bu, c).status.Pass?
    ensures SerializeSize(bu, buf) == |SerializeBlockUndo(bu, c).out|
  {
    SerializeSizeMeasuresDestination(bu, c, buf);
    if |bu.txundo| == 1 {
      WriteEachOne(bu.txundo, TxUndoWriter(c));
    }
  }

  /** With two or more entries SerializeSize falls short of the size of the
      full serialization, because every TxUndo writes at least its count. */
  lemma SerializeSizeUndercounts(bu: BlockUndo, c: UndoCodecs, buf: UndoCodecs)
    requires MeasuringBuffer(buf, c)
    requires |bu.txundo| >= 2
    requires SerializeBlockUndo(bu, c).status.Pass?
    requires forall n: nat :: c.varInt.encode(n).Ok? ==> |c.varInt.encode(n).value| > 0
    ensures SerializeSize(bu, buf) < |SerializeBlockUndo(bu, c).out|
  {
    SerializeSizeMeasuresDestination(bu, c, buf);
    var w := TxUndoWriter(c);
    WriteEachLayout(bu.txundo, w);
    OutputOfTail(bu.txundo, w, |bu.txundo|);
    OutputOfTail(bu.txundo[1..], w, |bu.txundo| - 1);
    assert bu.txundo[1..][0] == bu.txundo[1];
    assert |SerializeTxUndo(bu.txundo[1], c).out| > 0;
  }

  /** The serializer as written drops the error of the count write: with no
      entry it reports success although nothing reached the writer, where
      the intended serializer returns the error. */
  lemma AsWrittenHidesCountWriteFailure(bu: BlockUndo, c: UndoCodecs)
    requires bu.txundo == []
    requires c.varLenInt.encode(0).Err?
    ensures SerializeBlockUndoAsWritten(bu, c) == Written([], Pass)
    ensures SerializeBlockUndo(bu, c) == Written([], Fail(c.varLenInt.encode(0).error))
  {
  }

  /** With entries, a rejected count write still goes unreported: the writer
      receives only the first TxUndo, and success is returned when that
      entry's write succeeds, so the stream lacks its count. */
  lemma AsWrittenDropsCount(bu: BlockUndo, c: UndoCodecs)
    requires bu.txundo != []
    requires c.varLenInt.encode(|bu.txundo|).Err?
    requires SerializeTxUndo(bu.txundo[0], c).status.Pass?
    ensures SerializeBlockUndoAsWritten(bu, c) == Written(SerializeTxUndo(bu.txundo[0], c).out, Pass)
    ensures SerializeBlockUndo(bu, c) == Written([], Fail(c.varLenInt.encode(|bu.txundo|).error))
  {
  }

  /** The deserializer as written overwrites the error of the count read: it
      reports success with an empty BlockUndo, where the intended one
      returns the error and keeps the receiver. */
  lemma AsWrittenHidesCountReadFailure(bu: BlockUndo, s: Bytes, c: UndoCodecs)
    requires c.varLenInt.decode(s).Err?
    ensures UnserializeBlockUndoAsWritten(bu, s, c) == Loaded(BlockUndo([]), Ok(s))
    ensures UnserializeBlockUndo(bu, s, c) == Loaded(bu, Err(c.varLenInt.decode(s).error))
  {
  }

  /** A TxUndo read on its own respects MaxInputPerTx. */
  lemma TxUndoReaderBounded(s: Bytes, c: UndoCodecs)
    ensures TxUndoReader(c)(s).Ok? ==> |TxUndoReader(c)(s).value.value.undoCoins| <= c.maxInputPerTx
  {
    var l := UnserializeTxUndo(NewTxUndo(), s, c);
    assert TxUndoReader(c)(s).Ok? ==> TxUndoReader(c)(s).value.value == l.receiver && l.outcome.Ok?;
  }

  /** Every TxUndo the BlockUndo reader produces respects MaxInputPerTx. */
  lemma ReadTxUndosBounded(n: nat, s: Bytes, c: UndoCodecs)
    ensures var r := ReadEach(n, s, TxUndoReader(c));
      r.Ok? ==> forall i :: 0 <= i < |r.value.value| ==> |r.value.value[i].undoCoins| <= c.maxInputPerTx
  {
    forall t ensures TxUndoReader(c)(t).Ok? ==> |TxUndoReader(c)(t).value.value.undoCoins| <= c.maxInputPerTx {
      TxUndoReaderBounded(t, c);
    }
    ReadEachAll(n, s, TxUndoReader(c), (tu: TxUndo) => |tu.undoCoins| <= c.maxInputPerTx);
  }

  /** A successfully loaded BlockUndo holds the announced number of
      entries, none above the coin bound. */
  lemma LoadedBlockUndoBounded(bu: BlockUndo, s: Bytes, c: UndoCodecs)
    ensures var r := UnserializeBlockUndo(bu, s, c);
      r.outcome.Ok? ==> forall i :: 0 <= i < |r.receiver.txundo| ==> |r.receiver.txundo[i].undoCoins| <= c.maxInputPerTx
  {
    var d := c.varLenInt.decode(s);
    if d.Ok? {
      ReadTxUndosBounded(d.value.value, d.value.rest, c);
    }
  }

  /** Two entries, the first spending one coin and the second none, are
      written as count 2, then count 1 and the coin, then count 0, and read
      back unchanged. */
  lemma TwoEntryScenario(coin: Coin, prior: BlockUndo, c: UndoCodecs)
    requires CodecsRoundTrip(c)
    requires c.maxInputPerTx >= 1 && c.maxSliceLen >= 2
    requires c.coin.encode(coin).Ok?
    requires c.varInt.encode(0).Ok? && c.varInt.encode(1).Ok? && c.varLenInt.encode(2).Ok?
    ensures var bu := BlockUndo([TxUndo([coin]), TxUndo([])]);
      && SerializeBlockUndo(bu, c) ==
           Written(c.varLenInt.encode(2).value + c.varInt.encode(1).value + c.coin.encode(coin).value + c.varInt.encode(0).value, Pass)
      && UnserializeBlockUndo(prior, SerializeBlockUndo(bu, c).out, c) == Loaded(bu, Ok([]))
  {
    var bu := BlockUndo([TxUndo([coin]), TxUndo([])]);
    var w := TxUndoWriter(c);
    var v0, v1, l2 := c.varInt.encode(0).value, c.varInt.encode(1).value, c.varLenInt.encode(2).value;
    var coinBytes := c.coin.encode(coin).value;
    assert SerializeTxUndo(TxUndo([coin]), c) == Written(v1 + coinBytes, Pass) by {
      WriteEachOne([coin], CoinWriter(c.coin));
    }
    assert SerializeTxUndo(TxUndo([]), c) == Written(v0, Pass) by {
      assert v0 + [] == v0;
    }
    assert WriteEach(bu.txundo, w) == Written(v1 + coinBytes + v0, Pass) by {
      assert bu.txundo[1..] == [TxUndo([])];
      WriteEachOne(bu.txundo[1..], w);
    }
    assert SerializeBlockUndo(bu, c).out == l2 + v1 + coinBytes + v0;
    BlockUndoRoundTrip(bu, prior, c, []);
    assert SerializeBlockUndo(bu, c).out + [] == SerializeBlockUndo(bu, c).out;
  }

  /** When the count and coin decoders only consume a prefix of their input,
      so does TxUndo.Unserialize. */
  lemma UnserializeTxUndoConsumesPrefix(tu: TxUndo, s: Bytes, c: UndoCodecs)
    requires ConsumesPrefix(c.varInt) && ConsumesPrefix(c.coin)
    ensures var r := UnserializeTxUndo(tu, s, c);
      r.outcome.Ok? ==> IsSuffix(r.outcome.value, s)
  {
    var d := c.varInt.decode(s);
    if d.Ok? {
      ReadEachConsumesPrefix(d.value.value, d.value.rest, c.coin.decode);
      var coins := ReadEach(d.value.value, d.value.rest, c.coin.decode);
      if coins.Ok? {
        SuffixTransitive(coins.value.rest, d.value.rest, s);
      }
    }
  }

  /** When the count and coin decoders only consume a prefix of their input,
      so does BlockUndo.Unserialize. */
  lemma UnserializeBlockUndoConsumesPrefix(bu: BlockUndo, s: Bytes, c: UndoCodecs)
    requires ConsumesPrefix(c.varLenInt) && ConsumesPrefix(c.varInt) && ConsumesPrefix(c.coin)
    ensures var r := UnserializeBlockUndo(bu, s, c);
      r.outcome.Ok? ==> IsSuffix(r.outcome.value, s)
  {
    forall t | TxUndoReader(c)(t).Ok? ensures IsSuffix(TxUndoReader(c)(t).value.rest, t) {
      UnserializeTxUndoConsumesPrefix(NewTxUndo(), t, c);
    }
    var d := c.varLenInt.decode(s);
    if d.Ok? {
      ReadEachConsumesPrefix(d.value.value, d.value.rest, TxUndoReader(c));
      var txundos := ReadEach(d.value.value, d.value.rest, TxUndoReader(c));
      if txundos.Ok? {
        SuffixTransitive(txundos.value.rest, d.value.rest, s);
      }
    }
  }
}
